=== FILE: README.md ===
# ntp — a Dafny model of the packet codec and session engines

`ntp` is a small remote file-access protocol. A client sends commands over one
TCP connection: change directory, print directory, list a directory, fetch a
file. The server runs them against its filesystem and streams back framed
packets, including chunked file downloads that the client reassembles.

This project models the protocol core and proves properties of the model:

- `bytes.dfy` (`Bytes`): fixed-width integers, the little-endian field
  encoding, C strings and ASCII text.
- `packet.dfy` (`Packets`): the `Packet` class of `packet.h`. It covers the
  8192-byte frame buffer, the 6-byte header (body length, action, id), the
  clamping body-length setter, `decode_header`, `encode_header` and
  `length()`. It also holds the logical frame (`Message`) and its wire
  serialization.
- `readloop.dfy` (`ReadLoop`): the read loop that the client and the server
  session share. It reads a header, then the body, dispatches the packet and
  goes back to reading a header. Any error ends it in a terminal `Closed`
  state.
- `writequeue.dfy` (`WriteQueue`): the client's outbound FIFO (`write`,
  `do_write`) as a state machine over a packet queue, an in-flight flag and
  the socket state.
- `client.dfy` (`ClientSession`): the client's `parsePacket` over the
  transfer map (`files`) and the local files.
- `server.dfy` (`ServerSession`): the server session. It covers the current
  directory, the `nextID` counter, `parsePacket` dispatch (with the
  `CHANGEDIR`→`PRINTDIR` fallthrough), `downloadFile`, `listdir`'s reply and
  `sendTextMessage`.
- `transfer.dfy` (`Transfer`): a download end to end, from the server's
  frames, through the wire and the client's read loop, to the client's
  reassembled file.

Modelling choices:

- **Byte order.** The source copies header fields to and from native memory,
  so it fixes no byte order. The model fixes little-endian for the three u16
  header fields and for the u32 size at the start of an `OPEN_W` body.
- **Filesystem.** The server's filesystem is a value, `Env`. It maps regular
  files to their contents and directories to the listing text their
  enumeration produces. It also gives the canonical form of every path that
  resolves. `exists`, `file_size`, `canonical`, the directory iterator and
  `ifstream` are read from it. Paths that exist as neither a regular file
  nor a directory are outside this abstraction: FIFOs, devices and sockets.
  In the source such a path ends the process, because `file_size` or the
  directory iterator throws. In the model it can only be absent.
- **Write results.** `writePacket`'s result is an oracle `nat -> bool` that
  answers success or failure for the k-th write of one download.
- **Read loop input.** The read loop takes the peer's byte stream. A stream
  that ends before a read is complete makes that read fail.
- **Concurrency.** The server runs handlers on worker threads. The model runs
  each handler to completion and returns its frames as a sequence.
- **Unsafe inputs.** Three places in the source assume a bound without
  checking it. The dispatchers state these bounds as preconditions
  (`ClientSession.Parsable`, `ServerSession.Dispatchable`) instead of
  assuming them away:
  - The NUL terminator written at `body()[body_length()]` lands one past the
    buffer when the body is the full 8186 bytes.
    `ReadLoop.FullBodyIsDispatched` shows that the read loop does dispatch
    such a packet.
  - A path is copied into `char[512]` with `strncpy(..., body_length + 1)`,
    which needs a body of at most 511 bytes.
  - The client's `filename[body_length - 4]` underflows when the body is
    shorter than 4 bytes.
  - A fourth bound: `strcpy` of the file name into the `OPEN_W` body needs a
    name of at most 8181 bytes (`ServerSession.DownloadSafe`).

Three behaviours of the code that the model follows and a reader might not
expect:

- After a chunk write fails, `downloadFile` still attempts the `CLOSE` frame.
- After a failed read or a rejected header, the server session stops reading
  and releases the session, which closes the socket. The client closes its
  socket explicitly. The model shows both as the terminal `Closed` state.
- The client's write handler tests only the error code. A write whose bytes
  went out before a read error closed the socket, but whose handler runs
  after the close, still pops its packet (`WriteQueue.SuccessAfterClose`).

## Model

| member | source | states |
|---|---|---|
| Packets.NewPacket | src/packet.h:25-28 | a default-constructed packet has body length 0, action `PLAIN_TEXT` (0) and id 0, and satisfies the packet invariant |
| Packets.Length | src/packet.h:38-40 | `length()` is the header length plus the body length and never exceeds the 8192-byte buffer |
| Packets.SetBodyLengthAsWritten | src/packet.h:54-58 | the setter as written: the body length becomes `min(n mod 2^16, 8186)`, and the buffer, action and id are untouched |
| Packets.SetBodyLength | src/packet.h:54-58 | the intended setter: the body length becomes `min(n, 8186)` and nothing else changes |
| Packets.SetBodyLengthAgreesBelow64K | src/packet.h:54-58 | the two setters agree for every requested length below 2^16 |
| Packets.SetBodyLengthTruncates | src/packet.h:54-58 | asking for 65540 bytes gives 4 as written but 8186 as intended |
| Packets.SetBodyLengthKeepsValid | src/packet.h:54-58 | after the setter the packet invariant holds and `length() <= 8192`; for a requested length within the bound, the body is exactly that many buffer bytes after the header |
| Packets.DecodeHeader | src/packet.h:60-70 | decoding succeeds iff bytes 0-1 declare at most 8186. On failure the length is reset to 0 and action and id are left unchanged. On success the three fields come from bytes 0-1, 2-3 and 4-5. The buffer is never modified |
| Packets.EncodeHeader | src/packet.h:72-76 | bytes 0-5 become the encoded length, action and id; every byte from offset 6 on and all three fields are unchanged |
| Packets.HeaderRoundTrip | src/packet.h:60-76 | for every valid packet, encoding then decoding succeeds and restores all three fields |
| Packets.HeaderBytesRoundTrip | src/packet.h:60-76 | any header bytes that decode are reproduced exactly by re-encoding the decoded fields |
| Packets.RejectOversized | src/packet.h:60-65 | a header declaring more than 8186 bytes is rejected whatever the rest of the buffer holds |
| Packets.WireIsSerialization | src/ntp_server.cpp:130-135 | after `encode_header`, the `length()` bytes a write transmits are exactly header then body of the packet's frame |
| Packets.OpenMessage | src/ntp_server.cpp:106-111 | the `OPEN_W` body is the 4-byte size followed by the bare name, `4 + |name|` bytes in all |
| Bytes.CString | src/ntp_server.cpp:58-62 | the string C reads from a terminated buffer is its longest prefix without a NUL; a shorter result is followed by a NUL |
| Bytes.U32RoundTrip | src/ntp_client.cpp:119 | the u32 size written into an `OPEN_W` body is read back unchanged |
| ReadLoop.Step | src/ntp_client.cpp:70-96 | a body read is issued iff a header read succeeded and decoded. A packet is dispatched iff a body read succeeded, and it carries exactly the bytes read. Any read error is terminal, and nothing happens once closed |
| ReadLoop.Run | src/ntp_server.cpp:33-55 | driven by the peer's stream, the loop always ends closed and every dispatched packet satisfies the packet invariant |
| ReadLoop.ClosedIsFinal | src/ntp_client.cpp:75-94 | once closed, the loop dispatches nothing whatever arrives |
| ReadLoop.OversizedHeaderDispatchesNothing | src/ntp_server.cpp:38-42 | after an oversized header no body is read and no packet is dispatched |
| ReadLoop.OneFrame | src/ntp_client.cpp:70-96 | one serialized frame takes the loop from awaiting a header, through awaiting its body, back to awaiting a header, and dispatches the frame intact |
| ReadLoop.OneFrameRun | src/ntp_client.cpp:70-96 | the loop over one frame and further bytes dispatches that frame first, then proceeds over the further bytes alone |
| ReadLoop.FramingRoundTrip | src/ntp_client.cpp:70-96 | on a stream of serialized frames, the loop dispatches exactly those frames in order |
| ReadLoop.FullBodyIsDispatched | src/ntp_server.cpp:58 | a full 8186-byte body is accepted and dispatched, so the terminator offset `6 + body_length` equals the buffer size |
| WriteQueue.Write | src/ntp_client.cpp:35-44 | `write` appends at the back, and it starts a transmission iff the queue was empty beforehand |
| WriteQueue.Complete | src/ntp_client.cpp:98-112 | a write issued while the socket was open can succeed even after a later close. On success the front packet is the next one sent, it is popped, and another write starts iff packets remain. On error, or for a write issued on a closed socket, the socket closes, the front stays queued and no write starts |
| WriteQueue.FifoOrder | src/ntp_client.cpp:98-112 | over any events, what was sent followed by what is still queued equals everything enqueued, in enqueue order |
| WriteQueue.StepOrder | src/ntp_client.cpp:35-44 | every single event keeps sent-then-queued equal to what was there plus the packet the event posts, if any |
| WriteQueue.SentOnlyGrows | src/ntp_client.cpp:98-112 | transmission only ever extends the sequence of sent packets |
| WriteQueue.NothingSentAfterClose | src/ntp_client.cpp:98-112 | once the socket is closed and no write issued before the close is outstanding, nothing more is ever transmitted |
| WriteQueue.SuccessAfterClose | src/ntp_client.cpp:101-107 | a write that succeeded but whose handler runs after a close still pops its packet and counts as sent |
| WriteQueue.ThreeInOrder | src/ntp_client.cpp:35-44 | writing A, B, C on a fresh channel whose writes succeed transmits A, B, C and empties the queue |
| ClientSession.Entry | src/ntp_client.cpp:15-22 | `files[id]` yields the stored entry, or for an unknown id a fresh one with `curSize == 0` and no open stream |
| ClientSession.Parse | src/ntp_client.cpp:116-142 | `OPEN_W` sets `finalSize` from body bytes 0-3 and opens the name in the rest, with `curSize == 0` for a new entry. `WRITE_CHUNK` adds the body length to `curSize` mod 2^32 and appends the body. `CLOSE` removes the entry and stores its written bytes. Any other action only prints the body. Other ids' entries never change |
| ClientSession.ChunksAccumulate | src/ntp_client.cpp:126-129 | chunks for an open transfer append their concatenation and add its length to `curSize`, touching nothing else |
| ClientSession.OpenFresh | src/ntp_client.cpp:118-125 | `OPEN_W` for an unknown id creates one entry with the announced size, count 0 and an open stream on the bare name, and truncates that file |
| ClientSession.TransferProgress | src/ntp_client.cpp:118-129 | after `OPEN_W` and some chunks, the entry records the announced size and counts exactly the bytes received. The count stays within the announced size while the chunks do |
| ClientSession.TransferCompletes | src/ntp_client.cpp:116-135 | `OPEN_W`, then chunks, then `CLOSE` leaves the named file holding exactly the chunks' bytes, no entry for the id, and other transfers untouched |
| ClientSession.CloseAfterOpen | src/ntp_client.cpp:131-136 | `CLOSE` on a transfer opened from a state without that id restores the map and stores the written bytes under the name |
| ClientSession.ProgressMonotonic | src/ntp_client.cpp:126-129 | a chunk never decreases the received count short of the u32 wrap |
| ServerSession.Append | src/ntp_server.cpp:98 | joining a non-empty relative part keeps the base as prefix and the part as suffix, with at most one separator between them; an empty part leaves the base |
| ServerSession.Filename | src/ntp_server.cpp:107 | a path that is only a network root name (`//name`) is its own file name; otherwise the file name is the suffix after the path's last separator and holds no separator |
| ServerSession.RootName | src/ntp_server.cpp:79 | a path has a root name exactly when it starts with two separators and a non-separator; the root name is then the prefix up to the next separator |
| ServerSession.PlainAbsolute | src/ntp_server.cpp:79 | for paths without a root name, `canonical` resolves an absolute argument as given and a relative one under the current directory |
| ServerSession.NetworkAbsolute | src/ntp_server.cpp:79 | `//t` from `/h` resolves as `//t/h`, and `/z` from `//x/y` resolves as `//x/z` |
| ServerSession.RootRequestKeepsNetworkName | src/ntp_server.cpp:98-107 | requesting `/f` from the root directory joins to `//f`, and `OPEN_W` carries that whole path as the name |
| ServerSession.TextPacket | src/ntp_server.cpp:178-184 | `sendTextMessage` builds a `PLAIN_TEXT` packet with id 0 whose body is the text cut to 8186 bytes |
| ServerSession.TextPacketAsWritten | src/ntp_server.cpp:178-184 | the packet `sendTextMessage` builds with the setter as written carries the text cut to its length mod 2^16, then to 8186 bytes |
| ServerSession.TextAsWrittenAgreesBelow64K | src/ntp_server.cpp:178-184 | for every text shorter than 2^16 bytes, the packet built with the setter as written carries the same frame as the model's text reply |
| ServerSession.TextMessage | src/ntp_server.cpp:178-184 | a text reply is `PLAIN_TEXT`, id 0, carrying the text cut to what fits in one body |
| ServerSession.LongTextTruncated | src/ntp_server.cpp:173-175 | a 65540-byte listing goes out with a 4-byte body as written but with 8186 bytes as intended |
| ServerSession.Chunks | src/ntp_server.cpp:115-121 | an n-byte file yields `n / 8186 + 1` chunks. They concatenate to the file. All but the last are full, and the last holds `n mod 8186` bytes, so it is empty for a multiple of 8186 |
| ServerSession.ReadChunks | src/ntp_server.cpp:116-122 | the `while (stream)` read loop produces exactly those chunks, which concatenate to the file |
| ServerSession.ChunkAttempts | src/ntp_server.cpp:117-121 | chunks are written in order and stop right after the first failed write; every write before it succeeded |
| ServerSession.SendFile | src/ntp_server.cpp:106-127 | `OPEN_W` comes first, and the download stops there if that write fails. Otherwise the chunks follow until one fails, then `CLOSE`. All frames carry one id and fit one body |
| ServerSession.DownloadFile | src/ntp_server.cpp:94-128 | every call takes `nextID` as its id and advances it by 1 mod 2^16. A missing path gives exactly one `PLAIN_TEXT` error and no transfer frames. A directory aborts. A file gives the transfer frames |
| ServerSession.DownloadAllWritten | src/ntp_server.cpp:106-127 | when every write succeeds, the frames are `OPEN_W`, one `WRITE_CHUNK` per chunk, then `CLOSE` |
| ServerSession.ChunkFailureStillCloses | src/ntp_server.cpp:120-127 | a failed first chunk stops the chunks but a `CLOSE` is still attempted |
| ServerSession.ListDirectory | src/ntp_server.cpp:142-176 | a missing path gives one error text and a directory gives one listing text, neither changing the session; a regular file aborts |
| ServerSession.Dispatch | src/ntp_server.cpp:57-92 | `OPEN_R` downloads and `LISTDIR` lists. `CHANGEDIR` moves `cwd` only when the path, made absolute as Boost's `absolute` does (root names included), resolves, then replies "CWD is now " plus the resulting `cwd`. `PRINTDIR` replies the same text without moving. Anything else changes nothing and sends nothing |
| ServerSession.ChangeDirToNowhere | src/ntp_server.cpp:74-87 | `CHANGEDIR` to a path that does not resolve leaves `cwd` unchanged and still yields exactly one reply |
| Transfer.TransferFramesWellFormed | src/ntp_server.cpp:106-127 | the frames of a complete transfer fit the wire format and meet every bound the client's dispatcher relies on |
| Transfer.DownloadReassembles | src/ntp_client.cpp:116-135 | with every write succeeding, a server download is serialized, read back by the client's loop and handled by its dispatcher. The client ends with the file's exact bytes under its bare name, no leftover entry, and nothing printed |

## Left out

- ServerSession.TextPacket uses the intended clamp, not the 16-bit truncation of the setter as written. For a text of 2^16 bytes or more it carries `min(|t|, 8186)` bytes where `sendTextMessage` sends `min(|t| mod 2^16, 8186)`. The truncation is the finding below, and `ServerSession.TextPacketAsWritten` models it.
- ServerSession.TextMessage uses the same intended clamp, for the same reason. It agrees with the source for every text below 2^16 bytes (`ServerSession.TextAsWrittenAgreesBelow64K`).
- ServerSession.ListDirectory sends its reply through `ServerSession.TextMessage`. A listing reply of 2^16 bytes or more therefore carries 8186 bytes, where `listdir` sends `min(L mod 2^16, 8186)`.

- Boost.Asio plumbing is not modelled: sockets, `io_service`, the `async_*` calls, `do_connect`, the acceptor and both `main` functions. This is I/O and process startup. Read and write completions are modelled as success or failure events.
- Server handlers run on spawned `boost::thread`s that write to the socket directly. This concurrency is not modelled. Each handler runs to completion and its frames are returned in order. That includes `nextID++`, which the source performs inside the thread.
- `displayProgress` is not modelled. It is a sleep loop that prints a floating-point percentage while reading the map concurrently.
- `formatSize` and `listdir`'s directory formatting are not modelled. They are display formatting over filesystem enumeration, so the listing text is an oracle value in `Env`.
- The client's interactive command parsing in `main` is not modelled.
- `ServerSession.DownloadFile` covers the abort when a directory's size is requested. It does not cover an existing file that `ifstream` fails to open; the source then sends no chunks, only `CLOSE`.
- `ClientSession.Parse` assumes that `ofstream::open` on a fresh stream succeeds. Filesystem failures on the client are not modelled.
- `ClientSession.Parse` does not model console logging. It records the text printed for plain packets but not the diagnostic `printf` lines.
- `ServerSession.Dispatch` does not model the server's logging: the `printf` lines in `parsePacket` and the `std::cerr` messages of `downloadFile`, `writePacket` and `listdir`.
- Neither dispatcher's model writes the NUL terminator back into the receive buffer. The read loop never reads that byte before overwriting it.
- `writePacket` falls off its end on the success path without a `return`, which is undefined behaviour. It is modelled as a boolean oracle where `true` is success.
- The uninitialised bytes of a fresh `Packet` are modelled as zeros. No property depends on them.
- The client's map is keyed by `short int` and fed `uint16_t` ids. The conversion is injective, so the model keys by the 16-bit id.
- `ServerSession.Filename` gives an empty name for a path ending in a separator, where Boost gives "." (or the root itself for `/` and `//`). A regular file is never reached through such a path.
- `ClientSession.Parse` keys the local files by the name text and does not resolve paths. So a name such as `//f`, which Linux opens as `/f`, is a different key from `/f`.
- `ServerSession.Append` models Boost's `/=` on POSIX byte paths. It does not model Boost's format or encoding conversion.

## Findings

| source | as written | input that shows it | evidently intended | confidence | as-written member | corrected member |
|---|---|---|---|---|---|---|
| src/packet.h:54-58 | The `size_t` argument is stored into the 16-bit `body_length_` before the clamp, so a length of 2^16 or more is first reduced mod 2^16. | `body_length(65540)` yields 4. `listdir` calls `body_length(contents.str().length())`, so a 65540-byte listing goes out as a 4-byte body (`ServerSession.LongTextTruncated`). | Clamp the requested length to 8186. | high; not executed | Packets.SetBodyLengthAsWritten | Packets.SetBodyLength |

=== FILE: bytes.dfy ===
/** Byte-level vocabulary shared by the packet codec and both session engines:
    fixed-width unsigned integers, the little-endian field encoding this model
    fixes for the wire, NUL-terminated strings as C reads them, and ASCII text. */
module Bytes {

  type Byte = x: int | 0 <= x < 0x100
  type U16 = x: int | 0 <= x < 0x1_0000
  type U32 = x: int | 0 <= x < 0x1_0000_0000
  type Bytes = seq<Byte>

  /** No byte of `s` is the C string terminator. */
  predicate NoNul(s: Bytes) {
    forall i :: 0 <= i < |s| ==> s[i] != 0
  }

  /** Byte strings that C code can hold in a NUL-terminated buffer without
      losing a suffix: paths, file names, reply texts. */
  type Text = s: Bytes | NoNul(s)

  datatype Option<T> = None | Some(value: T)

  function Min(a: int, b: int): int {
    if a < b then a else b
  }

  // ---------------------------------------------------------------------------
  // Little-endian fixed-width fields

  function EncodeU16(x: U16): (b: Bytes)
    ensures |b| == 2
  {
    [x % 0x100, x / 0x100]
  }

  function DecodeU16(b: Bytes): U16
    requires |b| == 2
  {
    b[0] as int + 0x100 * b[1] as int
  }

  lemma U16RoundTrip(x: U16)
    ensures DecodeU16(EncodeU16(x)) == x
  {
  }

  lemma U16BytesRoundTrip(b: Bytes)
    requires |b| == 2
    ensures EncodeU16(DecodeU16(b)) == b
  {
  }

  function EncodeU32(x: U32): (b: Bytes)
    ensures |b| == 4
  {
    [x % 0x100, (x / 0x100) % 0x100, (x / 0x1_0000) % 0x100, x / 0x100_0000]
  }

  function DecodeU32(b: Bytes): U32
    requires |b| == 4
  {
    b[0] as int + 0x100 * b[1] as int + 0x1_0000 * b[2] as int + 0x100_0000 * b[3] as int
  }

  lemma U32RoundTrip(x: U32)
    ensures DecodeU32(EncodeU32(x)) == x
  {
    var b := EncodeU32(x);
    var hi := x / 0x1_0000;
    assert x == x % 0x1_0000 + 0x1_0000 * hi;
    assert x % 0x1_0000 == b[0] as int + 0x100 * b[1] as int;
    assert hi == b[2] as int + 0x100 * b[3] as int;
  }

  // ---------------------------------------------------------------------------
  // C strings

  /** The string C sees in a buffer: the bytes before the first NUL, or the
      whole buffer when it holds none (the caller has put a NUL after it). */
  function CString(b: Bytes): (s: Text)
    ensures |s| <= |b| && s == b[..|s|]
    ensures |s| < |b| ==> b[|s|] == 0
    decreases |b|
  {
    if |b| == 0 || b[0] == 0 then [] else [b[0]] + CString(b[1..])
  }

  lemma CStringOfText(t: Text)
    ensures CString(t) == t
  {
  }

  /** ASCII literals as bytes; a literal never holds a NUL. */
  function Ascii(s: string): (t: Text)
    requires forall i :: 0 <= i < |s| ==> 0 < s[i] as int < 0x100
    ensures |t| == |s|
    ensures forall i :: 0 <= i < |s| ==> t[i] == s[i] as int
  {
    seq(|s|, i requires 0 <= i < |s| => s[i] as int)
  }

  /** Concatenation of a sequence of byte strings, in order. */
  function Concat(parts: seq<Bytes>): (b: Bytes)
    decreases |parts|
  {
    if |parts| == 0 then [] else parts[0] + Concat(parts[1..])
  }

  lemma ConcatAppend(parts: seq<Bytes>, last: Bytes)
    ensures Concat(parts + [last]) == Concat(parts) + last
    decreases |parts|
  {
    if |parts| == 0 {
      assert parts + [last] == [last];
    } else {
      assert (parts + [last])[1..] == parts[1..] + [last];
      ConcatAppend(parts[1..], last);
    }
  }
}

=== FILE: client.dfy ===
/** The client's handling of received packets (`parsePacket` over the `files`
    map in `ntp_client.cpp`): `OPEN_W` starts a download, `WRITE_CHUNK`
    appends to it, `CLOSE` finishes it, anything else is printed as text. */
module ClientSession {
  import opened Bytes
  import opened Packets

  /** The `std::ofstream` of a transfer: never opened, or opened on `path`
      with the bytes written through it so far; `good` turns false when a
      second `open` on the same stream fails, after which writes are lost. */
  datatype Stream = Unopened | Opened(path: Text, written: Bytes, good: bool)

  /** `FileInfo`. Its constructor sets only `curSize`; a `finalSize` never
      assigned is indeterminate, modelled as `None`. */
  datatype FileInfo = FileInfo(finalSize: Option<U32>, curSize: U32, stream: Stream)

  /** The client: the transfer map keyed by packet id, the local files as a
      closed stream leaves them, and the texts printed for plain messages. */
  datatype Client = Client(files: map<U16, FileInfo>, disk: map<Text, Bytes>, console: seq<Bytes>)

  const Fresh := FileInfo(None, 0, Unopened)

  /** `files[id]`: the entry for `id`, or a fresh default one that
      `std::map::operator[]` inserts when there is none. */
  function Entry(files: map<U16, FileInfo>, id: U16): (e: FileInfo)
    ensures id in files ==> e == files[id]
    ensures id !in files ==> e == Fresh && e.curSize == 0 && e.stream == Unopened
  {
    if id in files then files[id] else Fresh
  }

  /** What `parsePacket` silently needs of a packet. `OPEN_W` reads a 4-byte
      size and writes a terminator at `filename[body_length - 4]`, which
      underflows below 4 bytes; that terminator, like the one the default
      branch writes at `body()[body_length()]`, lies one past the 8192-byte
      buffer when the body is the full 8186 bytes. */
  predicate Parsable(m: Message) {
    && |m.body| <= MaxBody
    && (m.action == OpenWrite ==> 4 <= |m.body| < MaxBody)
    && (m.action != OpenWrite && m.action != WriteChunk && m.action != Close ==> |m.body| < MaxBody)
  }

  /** Entries other than `id` are the same in both maps. */
  predicate OthersUnchanged(a: map<U16, FileInfo>, b: map<U16, FileInfo>, id: U16) {
    a - {id} == b - {id}
  }

  function Parse(c: Client, m: Message): (r: Client)
    requires Parsable(m)
    // OPEN_W: the size comes from body bytes 0-3, the name from the rest
    ensures m.action == OpenWrite ==>
              && m.id in r.files
              && r.files[m.id].finalSize == Some(DecodeU32(m.body[..4]))
              && r.files[m.id].curSize == Entry(c.files, m.id).curSize
              && OthersUnchanged(r.files, c.files, m.id)
              && r.console == c.console
    ensures m.action == OpenWrite && m.id !in c.files ==>
              && r.files[m.id] == FileInfo(Some(DecodeU32(m.body[..4])), 0, Opened(CString(m.body[4..]), [], true))
              && r.disk == c.disk[CString(m.body[4..]) := []]
    ensures m.action == OpenWrite ==>
              var s := Entry(c.files, m.id).stream;
              if s.Unopened? then
                r.files[m.id].stream == Opened(CString(m.body[4..]), [], true) && r.disk == c.disk[CString(m.body[4..]) := []]
              else
                r.files[m.id].stream == s.(good := false) && r.disk == c.disk
    // WRITE_CHUNK: count every byte, store them only through a good stream
    ensures m.action == WriteChunk ==>
              && m.id in r.files
              && r.files[m.id].curSize == (Entry(c.files, m.id).curSize + |m.body|) % 0x1_0000_0000
              && r.files[m.id].finalSize == Entry(c.files, m.id).finalSize
              && OthersUnchanged(r.files, c.files, m.id)
              && r.disk == c.disk && r.console == c.console
    ensures m.action == WriteChunk ==>
              var s := Entry(c.files, m.id).stream;
              r.files[m.id].stream == if s.Opened? && s.good then s.(written := s.written + m.body) else s
    // CLOSE: the entry is gone and its file holds what was written
    ensures m.action == Close ==>
              && r.files == c.files - {m.id}
              && r.console == c.console
              && r.disk == (var s := Entry(c.files, m.id).stream;
                            if s.Opened? then c.disk[s.path := s.written] else c.disk)
    // anything else is shown as text and changes no transfer
    ensures m.action != OpenWrite && m.action != WriteChunk && m.action != Close ==>
              r == c.(console := c.console + [CString(m.body)])
  {
    var e := Entry(c.files, m.id);
    if m.action == OpenWrite then
      var size := DecodeU32(m.body[..4]);
      var name := CString(m.body[4..]);
      if e.stream.Unopened? then
        Client(c.files[m.id := e.(finalSize := Some(size), stream := Opened(name, [], true))],
               c.disk[name := []], c.console)
      else
        c.(files := c.files[m.id := e.(finalSize := Some(size), stream := e.stream.(good := false))])
    else if m.action == WriteChunk then
      var s := if e.stream.Opened? && e.stream.good then e.stream.(written := e.stream.written + m.body) else e.stream;
      c.(files := c.files[m.id := e.(curSize := (e.curSize + |m.body|) % 0x1_0000_0000, stream := s)])
    else if m.action == Close then
      var disk := if e.stream.Opened? then c.disk[e.stream.path := e.stream.written] else c.disk;
      Client(c.files - {m.id}, disk, c.console)
    else
      c.(console := c.console + [CString(m.body)])
  }

  predicate AllParsable(ms: seq<Message>) {
    forall i :: 0 <= i < |ms| ==> Parsable(ms[i])
  }

  /** Packets handled one after another, in the order they arrived. */
  function ApplyAll(c: Client, ms: seq<Message>): Client
    requires AllParsable(ms)
    decreases |ms|
  {
    if |ms| == 0 then c else ApplyAll(Parse(c, ms[0]), ms[1..])
  }

  lemma {:induction false} ApplyAllAppend(c: Client, a: seq<Message>, b: seq<Message>)
    requires AllParsable(a) && AllParsable(b)
    ensures AllParsable(a + b)
    ensures ApplyAll(c, a + b) == ApplyAll(ApplyAll(c, a), b)
    decreases |a|
  {
    if |a| == 0 {
      assert a + b == b;
    } else {
      assert (a + b)[0] == a[0];
      assert (a + b)[1..] == a[1..] + b;
      ApplyAllAppend(Parse(c, a[0]), a[1..], b);
    }
  }

  lemma ModAddAssoc(a: nat, b: nat, x: nat)
    ensures ((a + b) % 0x1_0000_0000 + x) % 0x1_0000_0000 == (a + (b + x)) % 0x1_0000_0000
  {
    var m := 0x1_0000_0000;
    var q := (a + b) / m;
    assert a + b == q * m + (a + b) % m;
    assert a + (b + x) == ((a + b) % m + x) + q * m;
    ModShift((a + b) % m + x, q);
  }

  lemma ModShift(y: nat, q: nat)
    ensures (y + q * 0x1_0000_0000) % 0x1_0000_0000 == y % 0x1_0000_0000
    decreases q
  {
    if q > 0 {
      ModShift(y, q - 1);
      assert y + q * 0x1_0000_0000 == (y + (q - 1) * 0x1_0000_0000) + 0x1_0000_0000;
    }
  }

  /** Chunks for an open transfer accumulate: the stream holds the chunks'
      concatenation after what it held, the byte count grows by its length
      (modulo 2^32), and nothing else changes. */
  lemma {:induction false} ChunksAccumulate(c: Client, id: U16, chunks: seq<Bytes>)
    requires Chunkable(chunks)
    requires id in c.files && c.files[id].stream.Opened? && c.files[id].stream.good
    ensures AllParsable(ChunkMessages(id, chunks))
    ensures var r := ApplyAll(c, ChunkMessages(id, chunks));
            var e := c.files[id];
            && id in r.files
            && r.files[id] == FileInfo(e.finalSize, (e.curSize + |Concat(chunks)|) % 0x1_0000_0000,
                                       e.stream.(written := e.stream.written + Concat(chunks)))
            && OthersUnchanged(r.files, c.files, id)
            && r.disk == c.disk && r.console == c.console
    decreases |chunks|
  {
    if |chunks| > 0 {
      var c1 := Parse(c, Message(WriteChunk, id, chunks[0]));
      ChunksAccumulate(c1, id, chunks[1..]);
      assert ChunkMessages(id, chunks)[1..] == ChunkMessages(id, chunks[1..]);
      assert Concat(chunks) == chunks[0] + Concat(chunks[1..]);
      assert c.files[id].stream.written + Concat(chunks)
          == c.files[id].stream.written + chunks[0] + Concat(chunks[1..]);
      assert c1.files - {id} == c.files - {id};
      ModAddAssoc(c.files[id].curSize, |chunks[0]|, |Concat(chunks[1..])|);
    }
  }

  /** Progress: after `OPEN_W` and some chunks, the entry records the announced
      size, counts exactly the bytes received so far, and never exceeds the
      announced size while the chunks do not. */
  lemma {:induction false} TransferProgress(c: Client, id: U16, size: U32, name: Text, chunks: seq<Bytes>)
    requires id !in c.files && 4 + |name| < MaxBody && Chunkable(chunks)
    ensures var r := ApplyAll(c, [OpenMessage(id, size, name)] + ChunkMessages(id, chunks));
            && id in r.files
            && r.files[id] == FileInfo(Some(size), |Concat(chunks)| % 0x1_0000_0000, Opened(name, Concat(chunks), true))
            && (|Concat(chunks)| <= size ==> r.files[id].curSize <= size)
            && OthersUnchanged(r.files, c.files, id)
            && r.disk == c.disk[name := []]
  {
    var open := OpenMessage(id, size, name);
    OpenFresh(c, id, size, name);
    var c1 := Parse(c, open);
    assert ApplyAll(c, [open]) == ApplyAll(c1, []) == c1;
    ApplyAllAppend(c, [open], ChunkMessages(id, chunks));
    ChunksAccumulate(c1, id, chunks);
    assert [] + Concat(chunks) == Concat(chunks);
  }

  /** `OPEN_W` for an id with no transfer starts one on the bare name with
      the announced size, and truncates that file. */
  lemma OpenFresh(c: Client, id: U16, size: U32, name: Text)
    requires id !in c.files && 4 + |name| < MaxBody
    ensures var r := Parse(c, OpenMessage(id, size, name));
            && r.files == c.files[id := FileInfo(Some(size), 0, Opened(name, [], true))]
            && r.disk == c.disk[name := []] && r.console == c.console
  {
    var open := OpenMessage(id, size, name);
    assert open.body[..4] == EncodeU32(size) && open.body[4..] == name;
    U32RoundTrip(size);
    CStringOfText(name);
  }

  /** Transfer completion: `OPEN_W`, then chunks, then `CLOSE` for an id
      with no transfer leaves the named file holding exactly the chunks'
      concatenation and no entry for the id; other transfers are untouched. */
  lemma {:induction false} TransferCompletes(c: Client, id: U16, size: U32, name: Text, chunks: seq<Bytes>)
    requires id !in c.files && 4 + |name| < MaxBody && Chunkable(chunks)
    ensures var r := ApplyAll(c, [OpenMessage(id, size, name)] + ChunkMessages(id, chunks) + [Message(Close, id, [])]);
            && r.files == c.files
            && r.disk == c.disk[name := Concat(chunks)]
            && r.console == c.console
  {
    var front := [OpenMessage(id, size, name)] + ChunkMessages(id, chunks);
    TransferProgress(c, id, size, name, chunks);
    ApplyAllAppend(c, front, [Message(Close, id, [])]);
    var mid := ApplyAll(c, front);
    assert ApplyAll(mid, [Message(Close, id, [])]) == Parse(mid, Message(Close, id, []));
    CloseAfterOpen(c, mid, id, name, Concat(chunks));
    ApplyAllConsole(c, front);
  }

  /** `CLOSE` on a transfer that a client without `id` opened: the entry is
      gone again and the file holds what was written through the stream. */
  lemma CloseAfterOpen(c: Client, mid: Client, id: U16, name: Text, bytes: Bytes)
    requires id !in c.files && id in mid.files && OthersUnchanged(mid.files, c.files, id)
    requires mid.files[id].stream == Opened(name, bytes, true) && mid.disk == c.disk[name := []]
    ensures var r := Parse(mid, Message(Close, id, []));
            r.files == c.files && r.disk == c.disk[name := bytes] && r.console == mid.console
  {
    assert c.files - {id} == c.files;
  }

  /** Only plain-text (and unknown) packets print anything. */
  lemma {:induction false} ApplyAllConsole(c: Client, ms: seq<Message>)
    requires AllParsable(ms)
    requires forall i :: 0 <= i < |ms| ==> ms[i].action in {OpenWrite, WriteChunk, Close}
    ensures ApplyAll(c, ms).console == c.console
    decreases |ms|
  {
    if |ms| > 0 {
      ApplyAllConsole(Parse(c, ms[0]), ms[1..]);
    }
  }

  /** The byte count of a transfer never decreases with a chunk unless it
      wraps past 2^32. */
  lemma ProgressMonotonic(c: Client, m: Message)
    requires m.action == WriteChunk && |m.body| <= MaxBody && m.id in c.files
    requires c.files[m.id].curSize + |m.body| < 0x1_0000_0000
    ensures Parse(c, m).files[m.id].curSize == c.files[m.id].curSize + |m.body|
    ensures Parse(c, m).files[m.id].curSize >= c.files[m.id].curSize
  {
  }
}

=== FILE: packet.dfy ===
/** The packet codec of `packet.h`: a fixed 8192-byte frame buffer whose first
    six bytes are the header (body length, action, id, each a 16-bit field)
    and whose remaining 8186 bytes hold the body.

    The source copies the fields to and from native memory, so it fixes no
    byte order; this model fixes little-endian. */
module Packets {
  import opened Bytes

  const HeaderLength: nat := 6
  const Capacity: nat := 8192
  const MaxBody: nat := Capacity - HeaderLength

  // Action codes, numbered as the source's enumeration numbers them.
  const PlainText: U16 := 0
  const Close: U16 := 1
  const OpenRead: U16 := 2
  const OpenWrite: U16 := 3
  const WriteChunk: U16 := 4
  const ListDir: U16 := 5
  const ChangeDir: U16 := 6
  const PrintDir: U16 := 7

  /** The packet object: the raw frame buffer plus the three decoded header
      fields it keeps beside it. */
  datatype Packet = Packet(data: Bytes, bodyLen: U16, action: U16, id: U16)

  /** The object invariant: the buffer has the fixed capacity and the body
      length never exceeds what the buffer holds after the header. */
  predicate Valid(p: Packet) {
    |p.data| == Capacity && p.bodyLen <= MaxBody
  }

  /** A frame as it travels: what a packet means once its header is read. */
  datatype Message = Message(action: U16, id: U16, body: Bytes)

  /** The default-constructed packet. The source leaves the buffer
      uninitialised; the model fills it with zeros, and nothing below reads
      buffer bytes that were not written first. */
  function NewPacket(): (p: Packet)
    ensures Valid(p)
    ensures p.bodyLen == 0 && p.action == PlainText && p.id == 0
  {
    Packet(seq(Capacity, _ => 0), 0, PlainText, 0)
  }

  function Length(p: Packet): (n: nat)
    requires Valid(p)
    ensures n == HeaderLength + p.bodyLen
    ensures n <= Capacity
  {
    HeaderLength + p.bodyLen
  }

  function Body(p: Packet): (b: Bytes)
    requires Valid(p)
    ensures |b| == p.bodyLen
  {
    p.data[HeaderLength .. HeaderLength + p.bodyLen]
  }

  /** The logical frame a valid packet carries. */
  function View(p: Packet): Message
    requires Valid(p)
  {
    Message(p.action, p.id, Body(p))
  }

  /** The bytes a write of the packet transmits: `length()` bytes from the start
      of the buffer. */
  function Wire(p: Packet): (w: Bytes)
    requires Valid(p)
    ensures |w| == Length(p)
  {
    p.data[..Length(p)]
  }

  /** `buf` with `bytes` written at offset `off` and nothing else changed. */
  function Splice(buf: Bytes, off: nat, bytes: Bytes): (r: Bytes)
    requires off + |bytes| <= |buf|
    ensures |r| == |buf|
    ensures r[off .. off + |bytes|] == bytes
    ensures r[..off] == buf[..off] && r[off + |bytes|..] == buf[off + |bytes|..]
  {
    buf[..off] + bytes + buf[off + |bytes|..]
  }

  // ---------------------------------------------------------------------------
  // The body-length setter

  /** The setter exactly as the source writes it: the `size_t` argument is
      first stored into the 16-bit field, which keeps it modulo 2^16, and only
      then clamped to `MaxBody`. */
  function SetBodyLengthAsWritten(p: Packet, n: nat): (q: Packet)
    ensures q.bodyLen <= MaxBody
    ensures q.bodyLen == Min(n % 0x1_0000, MaxBody)
    ensures q.data == p.data && q.action == p.action && q.id == p.id
  {
    var stored := n % 0x1_0000;
    p.(bodyLen := if stored > MaxBody then MaxBody else stored)
  }

  /** The setter as intended: clamp the requested length to `MaxBody`. The
      rest of the model uses this one. */
  function SetBodyLength(p: Packet, n: nat): (q: Packet)
    ensures q.bodyLen == Min(n, MaxBody)
    ensures q.data == p.data && q.action == p.action && q.id == p.id
  {
    p.(bodyLen := if n > MaxBody then MaxBody else n)
  }

  /** Below 2^16 the two setters agree: the truncation is invisible for every
      length the 16-bit field can hold. */
  lemma SetBodyLengthAgreesBelow64K(p: Packet, n: nat)
    requires n < 0x1_0000
    ensures SetBodyLengthAsWritten(p, n) == SetBodyLength(p, n)
  {
  }

  /** The counterexample: asking for 65540 bytes, as a directory listing of
      that size does, yields a body of 4 bytes instead of the clamped 8186. */
  lemma SetBodyLengthTruncates(p: Packet)
    ensures SetBodyLengthAsWritten(p, 0x1_0000 + 4).bodyLen == 4
    ensures SetBodyLength(p, 0x1_0000 + 4).bodyLen == MaxBody
  {
  }

  /** After the corrected setter a valid packet stays valid, so `length()`
      never exceeds the buffer. */
  lemma SetBodyLengthKeepsValid(p: Packet, n: nat)
    requires |p.data| == Capacity
    ensures Valid(SetBodyLength(p, n))
    ensures Length(SetBodyLength(p, n)) <= Capacity
    ensures n <= MaxBody ==> Body(SetBodyLength(p, n)) == p.data[HeaderLength .. HeaderLength + n]
  {
  }

  // ---------------------------------------------------------------------------
  // Header decoding and encoding

  /** The outcome of `decode_header`: its boolean result and the packet
      object afterwards. */
  datatype Decoded = Decoded(ok: bool, packet: Packet)

  /** The body length the header bytes of a buffer declare. */
  function DeclaredLength(data: Bytes): U16
    requires |data| >= HeaderLength
  {
    DecodeU16(data[0..2])
  }

  function DecodeHeader(p: Packet): (r: Decoded)
    requires |p.data| == Capacity
    ensures Valid(r.packet) && r.packet.data == p.data
    ensures r.ok <==> DeclaredLength(p.data) <= MaxBody
    ensures !r.ok ==> r.packet.bodyLen == 0 && r.packet.action == p.action && r.packet.id == p.id
    ensures r.ok ==> && r.packet.bodyLen == DeclaredLength(p.data)
                     && r.packet.action == DecodeU16(p.data[2..4])
                     && r.packet.id == DecodeU16(p.data[4..6])
  {
    var len := DecodeU16(p.data[0..2]);
    if len > MaxBody then
      Decoded(false, p.(bodyLen := 0))
    else
      Decoded(true, p.(bodyLen := len, action := DecodeU16(p.data[2..4]), id := DecodeU16(p.data[4..6])))
  }

  /** The six header bytes of a frame with the given fields. */
  function HeaderBytes(bodyLen: U16, action: U16, id: U16): (h: Bytes)
    ensures |h| == HeaderLength
  {
    EncodeU16(bodyLen) + EncodeU16(action) + EncodeU16(id)
  }

  function EncodeHeader(p: Packet): (q: Packet)
    requires |p.data| == Capacity
    ensures |q.data| == Capacity
    ensures q.bodyLen == p.bodyLen && q.action == p.action && q.id == p.id
    ensures q.data[..HeaderLength] == HeaderBytes(p.bodyLen, p.action, p.id)
    ensures q.data[HeaderLength..] == p.data[HeaderLength..]
  {
    p.(data := Splice(p.data, 0, HeaderBytes(p.bodyLen, p.action, p.id)))
  }

  /** Decoding the header bytes of a frame recovers the three fields. */
  lemma {:induction false} HeaderFieldsRoundTrip(data: Bytes, bodyLen: U16, action: U16, id: U16)
    requires |data| >= HeaderLength
    requires data[..HeaderLength] == HeaderBytes(bodyLen, action, id)
    ensures DecodeU16(data[0..2]) == bodyLen
    ensures DecodeU16(data[2..4]) == action
    ensures DecodeU16(data[4..6]) == id
  {
    var h := HeaderBytes(bodyLen, action, id);
    assert data[0..2] == h[0..2] == EncodeU16(bodyLen);
    assert data[2..4] == h[2..4] == EncodeU16(action);
    assert data[4..6] == h[4..6] == EncodeU16(id);
    U16RoundTrip(bodyLen);
    U16RoundTrip(action);
    U16RoundTrip(id);
  }

  /** Header round trip: for every valid packet, `encode_header` followed by
      `decode_header` succeeds and leaves the fields and the buffer exactly as
      the encoding left them. */
  lemma {:induction false} HeaderRoundTrip(p: Packet)
    requires Valid(p)
    ensures DecodeHeader(EncodeHeader(p)) == Decoded(true, EncodeHeader(p))
  {
    var q := EncodeHeader(p);
    HeaderFieldsRoundTrip(q.data, p.bodyLen, p.action, p.id);
  }

  /** The reverse direction: any six header bytes that decode successfully are
      reproduced exactly by encoding the decoded fields. */
  lemma {:induction false} HeaderBytesRoundTrip(p: Packet)
    requires |p.data| == Capacity
    requires DeclaredLength(p.data) <= MaxBody
    ensures EncodeHeader(DecodeHeader(p).packet).data == p.data
  {
    var d := DecodeHeader(p).packet;
    var q := EncodeHeader(d);
    U16BytesRoundTrip(p.data[0..2]);
    U16BytesRoundTrip(p.data[2..4]);
    U16BytesRoundTrip(p.data[4..6]);
    assert q.data[..HeaderLength] == p.data[0..2] + p.data[2..4] + p.data[4..6] == p.data[..HeaderLength];
    assert q.data == q.data[..HeaderLength] + q.data[HeaderLength..];
    assert p.data == p.data[..HeaderLength] + p.data[HeaderLength..];
  }

  /** Rejection: whatever the buffer holds after its header, a declared body
      length above `MaxBody` makes `decode_header` fail and reset the length. */
  lemma RejectOversized(p: Packet, len: U16)
    requires |p.data| == Capacity && p.data[0..2] == EncodeU16(len) && len > MaxBody
    ensures !DecodeHeader(p).ok
    ensures DecodeHeader(p).packet == p.(bodyLen := 0)
  {
    U16RoundTrip(len);
  }

  // ---------------------------------------------------------------------------
  // Frames on the wire

  /** The bytes a message occupies on the wire. */
  function Serialize(m: Message): (w: Bytes)
    requires |m.body| <= MaxBody
    ensures |w| == HeaderLength + |m.body|
  {
    HeaderBytes(|m.body|, m.action, m.id) + m.body
  }

  predicate Chunkable(chunks: seq<Bytes>) {
    forall i :: 0 <= i < |chunks| ==> |chunks[i]| <= MaxBody
  }

  /** The `WRITE_CHUNK` frames of a transfer, one per chunk, in order. */
  function ChunkMessages(id: U16, chunks: seq<Bytes>): (ms: seq<Message>)
    requires Chunkable(chunks)
    ensures |ms| == |chunks|
    ensures forall i :: 0 <= i < |ms| ==> ms[i] == Message(WriteChunk, id, chunks[i])
    decreases |chunks|
  {
    if |chunks| == 0 then [] else [Message(WriteChunk, id, chunks[0])] + ChunkMessages(id, chunks[1..])
  }

  /** The `OPEN_W` frame announcing a file of `size` bytes named `name`: the
      size as a little-endian u32, then the name without its terminator. */
  function OpenMessage(id: U16, size: U32, name: Text): (m: Message)
    ensures m.action == OpenWrite && m.id == id
    ensures |m.body| == 4 + |name|
    ensures m.body[..4] == EncodeU32(size) && m.body[4..] == name
  {
    Message(OpenWrite, id, EncodeU32(size) + name)
  }

  /** What `writePacket` and the client's write queue transmit is exactly the
      serialization of the packet's logical frame, once its header is encoded. */
  lemma {:induction false} WireIsSerialization(p: Packet)
    requires Valid(p)
    ensures Valid(EncodeHeader(p))
    ensures Wire(EncodeHeader(p)) == Serialize(View(p))
  {
    var q := EncodeHeader(p);
    assert q.data[HeaderLength .. Length(p)] == p.data[HeaderLength .. Length(p)] by {
      assert q.data[HeaderLength .. Length(p)] == q.data[HeaderLength..][..p.bodyLen];
      assert p.data[HeaderLength .. Length(p)] == p.data[HeaderLength..][..p.bodyLen];
    }
    assert Wire(q) == q.data[..HeaderLength] + q.data[HeaderLength .. Length(p)];
  }
}

=== FILE: readloop.dfy ===
/** The read side of a connection, shared by the client (`do_read_header` /
    `do_read_body` in `ntp_client.cpp`) and the server session (the same pair
    in `ntp_server.cpp`): read six header bytes, decode them, read exactly the
    declared body, hand the packet to the dispatcher, and read the next header.
    A failed read or a rejected header ends the loop for good: the client
    closes its socket, the server session simply issues no further read and
    is released. */
module ReadLoop {
  import opened Bytes
  import opened Packets

  datatype Phase = AwaitingHeader | AwaitingBody | Closed

  /** The loop's state: where it is and the one packet object every read
      fills (`curPacket` / `recvPacket` in the source). */
  datatype Reader = Reader(phase: Phase, cur: Packet)

  /** The completion of the read that is outstanding: either every requested
      byte arrived, or the read failed. */
  datatype Completion = ReadOk(bytes: Bytes) | ReadFailed

  /** One transition, with the packet dispatched on the way, if any. */
  datatype Stepped = Stepped(next: Reader, dispatched: Option<Packet>)

  /** How many bytes the outstanding read asks for. */
  function Requested(r: Reader): nat {
    match r.phase
    case AwaitingHeader => HeaderLength
    case AwaitingBody => r.cur.bodyLen
    case Closed => 0
  }

  /** A successful read delivers exactly the bytes it asked for. */
  predicate Fits(r: Reader, c: Completion) {
    c.ReadOk? ==> |c.bytes| == Requested(r)
  }

  function Step(r: Reader, c: Completion): (s: Stepped)
    requires Valid(r.cur) && Fits(r, c)
    ensures Valid(s.next.cur)
    // nothing happens once closed: no read is outstanding
    ensures r.phase == Closed ==> s == Stepped(r, None)
    // any read error is terminal
    ensures c.ReadFailed? ==> s.next.phase == Closed && s.dispatched == None
    // a body read is issued exactly when a header read succeeded and decoded
    ensures s.next.phase == AwaitingBody <==>
              r.phase == AwaitingHeader && c.ReadOk? && DecodeU16(c.bytes[0..2]) <= MaxBody
    ensures r.phase == AwaitingHeader && c.ReadOk? && DecodeU16(c.bytes[0..2]) > MaxBody ==>
              s.next.phase == Closed && s.dispatched == None
    // a packet is dispatched exactly when a body read succeeds, and it carries
    // the bytes just read under the header decoded before
    ensures s.dispatched.Some? <==> r.phase == AwaitingBody && c.ReadOk?
    ensures s.dispatched.Some? ==>
              && s.next.phase == AwaitingHeader
              && s.dispatched.value == s.next.cur
              && View(s.next.cur) == Message(r.cur.action, r.cur.id, c.bytes)
  {
    match r.phase
    case Closed => Stepped(r, None)
    case AwaitingHeader =>
      (match c
       case ReadFailed => Stepped(r.(phase := Closed), None)
       case ReadOk(bytes) =>
         var d := DecodeHeader(r.cur.(data := Splice(r.cur.data, 0, bytes)));
         assert d.packet.data[0..2] == bytes[0..2];
         Stepped(Reader(if d.ok then AwaitingBody else Closed, d.packet), None))
    case AwaitingBody =>
      (match c
       case ReadFailed => Stepped(r.(phase := Closed), None)
       case ReadOk(bytes) =>
         var p := r.cur.(data := Splice(r.cur.data, HeaderLength, bytes));
         Stepped(Reader(AwaitingHeader, p), Some(p)))
  }

  /** A termination measure: a body read that asks for nothing consumes no
      bytes but moves from `AwaitingBody` to `AwaitingHeader`. */
  function Rank(ph: Phase): nat {
    match ph
    case Closed => 0
    case AwaitingHeader => 1
    case AwaitingBody => 2
  }

  /** The completion the outstanding read gets from what remains of the peer's
      byte stream; a stream that ends early fails the read. */
  function Next(r: Reader, stream: Bytes): (c: Completion)
    ensures Fits(r, c)
  {
    if Requested(r) <= |stream| then ReadOk(stream[..Requested(r)]) else ReadFailed
  }

  /** The loop driven by a finite byte stream from the peer (its end acts as a
      read error): the packets dispatched, in order, and the final state. */
  function Run(r: Reader, stream: Bytes): (res: (seq<Packet>, Reader))
    requires Valid(r.cur)
    ensures res.1.phase == Closed
    ensures forall i :: 0 <= i < |res.0| ==> Valid(res.0[i])
    decreases |stream|, Rank(r.phase)
  {
    if r.phase == Closed then ([], r)
    else
      var c := Next(r, stream);
      var s := Step(r, c);
      var rest := if c.ReadOk? then stream[|c.bytes|..] else stream;
      var (ps, fin) := Run(s.next, rest);
      (if s.dispatched.Some? then [s.dispatched.value] + ps else ps, fin)
  }

  /** The logical frames of a sequence of packets. */
  function Views(ps: seq<Packet>): (ms: seq<Message>)
    requires forall i :: 0 <= i < |ps| ==> Valid(ps[i])
    ensures |ms| == |ps|
    ensures forall i :: 0 <= i < |ps| ==> ms[i] == View(ps[i])
  {
    if |ps| == 0 then [] else [View(ps[0])] + Views(ps[1..])
  }

  predicate Framable(ms: seq<Message>) {
    forall i :: 0 <= i < |ms| ==> |ms[i].body| <= MaxBody
  }

  /** The byte stream that a sequence of frames makes, in order. */
  function SerializeAll(ms: seq<Message>): Bytes
    requires Framable(ms)
  {
    if |ms| == 0 then [] else Serialize(ms[0]) + SerializeAll(ms[1..])
  }

  /** Once closed, the loop dispatches nothing more, whatever arrives. */
  lemma ClosedIsFinal(r: Reader, stream: Bytes)
    requires Valid(r.cur) && r.phase == Closed
    ensures Run(r, stream) == ([], r)
  {
  }

  /** Rejection: a stream whose first header declares an oversized body is
      never read past that header, and nothing is dispatched. */
  lemma {:induction false} OversizedHeaderDispatchesNothing(r: Reader, stream: Bytes)
    requires Valid(r.cur) && r.phase == AwaitingHeader
    requires |stream| >= HeaderLength && DeclaredLength(stream) > MaxBody
    ensures Run(r, stream).0 == []
  {
    var c := Next(r, stream);
    assert c.ReadOk? && c.bytes[0..2] == stream[0..2];
    var s := Step(r, c);
    assert s.next.phase == Closed;
  }

  /** One frame: from `AwaitingHeader`, a serialized frame followed by any
      further bytes is dispatched intact, and the loop is back at
      `AwaitingHeader` with exactly the further bytes left. */
  lemma {:induction false} OneFrame(r: Reader, m: Message, more: Bytes)
    requires Valid(r.cur) && r.phase == AwaitingHeader && |m.body| <= MaxBody
    ensures var stream := Serialize(m) + more;
            var s1 := Step(r, Next(r, stream));
            var rest1 := stream[HeaderLength..];
            var s2 := Step(s1.next, Next(s1.next, rest1));
            && s1.next.phase == AwaitingBody && s1.dispatched == None
            && Next(r, stream).ReadOk? && Next(s1.next, rest1).ReadOk?
            && |Next(s1.next, rest1).bytes| == |m.body|
            && rest1[|m.body|..] == more
            && s2.dispatched.Some? && s2.next.phase == AwaitingHeader
            && View(s2.dispatched.value) == m
  {
    var stream := Serialize(m) + more;
    var h := HeaderBytes(|m.body|, m.action, m.id);
    assert stream[..HeaderLength] == h;
    var c1 := Next(r, stream);
    var spliced := Splice(r.cur.data, 0, c1.bytes);
    HeaderFieldsRoundTrip(spliced, |m.body|, m.action, m.id);
    var s1 := Step(r, c1);
    assert s1.next.cur.bodyLen == |m.body| && s1.next.cur.action == m.action && s1.next.cur.id == m.id;
    var rest1 := stream[HeaderLength..];
    assert rest1 == m.body + more;
    assert rest1[..|m.body|] == m.body;
  }

  /** The loop run over one frame and further bytes: the frame is dispatched
      first, then the loop carries on over the further bytes alone. */
  lemma {:induction false} OneFrameRun(r: Reader, m: Message, more: Bytes)
    requires Valid(r.cur) && r.phase == AwaitingHeader && |m.body| <= MaxBody
    ensures var stream := Serialize(m) + more;
            var s1 := Step(r, Next(r, stream));
            var s2 := Step(s1.next, Next(s1.next, stream[HeaderLength..]));
            && s2.dispatched.Some? && s2.next.phase == AwaitingHeader
            && View(s2.dispatched.value) == m
            && Run(r, stream).0 == [s2.dispatched.value] + Run(s2.next, more).0
  {
    var stream := Serialize(m) + more;
    OneFrame(r, m, more);
    var s1 := Step(r, Next(r, stream));
    var rest1 := stream[HeaderLength..];
    var s2 := Step(s1.next, Next(s1.next, rest1));
    assert Run(s1.next, rest1).0 == [s2.dispatched.value] + Run(s2.next, more).0;
  }

  /** Framing round trip: the loop started on a stream of serialized frames
      dispatches exactly those frames, in order, and then closes when the
      stream ends. */
  lemma {:induction false} FramingRoundTrip(r: Reader, ms: seq<Message>)
    requires Valid(r.cur) && r.phase == AwaitingHeader && Framable(ms)
    ensures Views(Run(r, SerializeAll(ms)).0) == ms
    decreases |ms|
  {
    var stream := SerializeAll(ms);
    if |ms| == 0 {
      assert Next(r, stream) == ReadFailed;
    } else {
      var more := SerializeAll(ms[1..]);
      assert stream == Serialize(ms[0]) + more;
      OneFrameRun(r, ms[0], more);
      var s1 := Step(r, Next(r, stream));
      var s2 := Step(s1.next, Next(s1.next, stream[HeaderLength..]));
      FramingRoundTrip(s2.next, ms[1..]);
      var ps := Run(s2.next, more).0;
      assert Views([s2.dispatched.value] + ps) == [View(s2.dispatched.value)] + Views(ps);
      assert ms == [ms[0]] + ms[1..];
    }
  }

  /** The terminator both dispatchers write at `body()[body_length()]` is at
      buffer offset `HeaderLength + bodyLen`; the loop accepts and dispatches a
      full 8186-byte body, for which that offset is one past the buffer. This
      is why the dispatchers' preconditions exclude a full body. */
  lemma {:induction false} FullBodyIsDispatched(r: Reader, m: Message)
    requires Valid(r.cur) && r.phase == AwaitingHeader && |m.body| == MaxBody
    ensures var ps := Run(r, Serialize(m)).0;
            |ps| == 1 && HeaderLength + ps[0].bodyLen == |ps[0].data|
  {
    FramingRoundTrip(r, [m]);
    assert SerializeAll([m]) == Serialize(m) + SerializeAll([]);
    assert SerializeAll([m]) == Serialize(m);
  }
}

=== FILE: server.dfy ===
/** The server session of `ntp_server.cpp`: per-connection state (current
    directory and the next transfer id), the dispatch of received packets, the
    chunked file download, the directory-listing reply and the text replies.

    The filesystem is an oracle: a map of regular files to their contents, a
    map of directories to the listing text their enumeration produces, and a
    map giving the canonical form of every path that resolves. `writePacket`
    is an oracle too, answering success or failure for its k-th call within
    one download. */
module ServerSession {
  import opened Bytes
  import opened Packets

  const Slash: Byte := 0x2F

  datatype Env = Env(files: map<Text, Bytes>, dirs: map<Text, Text>, canonical: map<Text, Text>)

  /** `cwd` and `nextID` of `ntp_session`. */
  datatype Session = Session(cwd: Text, nextId: U16)

  /** A handler either runs to its end, or dies on an exception nothing
      catches (a worker thread's uncaught exception ends the process). */
  datatype Outcome = Completed | Terminated

  /** The session afterwards and the frames handed to `writePacket`, in order. */
  datatype Reply = Reply(session: Session, writes: seq<Message>, outcome: Outcome)

  // ---------------------------------------------------------------------------
  // Paths

  /** `base /= rel` on POSIX paths: a separator is inserted only when neither
      side already supplies one and `base` is not empty; an empty `rel`
      leaves `base` as it is. */
  function Append(base: Text, rel: Text): (p: Text)
    ensures |rel| == 0 ==> p == base
    ensures |rel| > 0 ==> |base| + |rel| <= |p| <= |base| + |rel| + 1 && p[..|base|] == base && p[|p| - |rel|..] == rel
  {
    if |rel| == 0 then base
    else if |base| == 0 || base[|base| - 1] == Slash || rel[0] == Slash then base + rel
    else base + [Slash] + rel
  }

  /** The longest prefix of `s` without a separator. */
  function UntilSlash(s: Text): (r: Text)
    ensures |r| <= |s| && s[..|r|] == r
    ensures forall i :: 0 <= i < |r| ==> r[i] != Slash
    ensures |r| < |s| ==> s[|r|] == Slash
  {
    if |s| == 0 || s[0] == Slash then [] else [s[0]] + UntilSlash(s[1..])
  }

  /** The root name of a POSIX path in Boost.Filesystem v3: exactly two
      leading separators and the name up to the next separator (`//host`);
      empty for every other path. */
  function RootName(p: Text): (rn: Text)
    ensures |rn| <= |p| && p[..|rn|] == rn
    ensures |rn| > 0 <==> |p| > 2 && p[0] == Slash && p[1] == Slash && p[2] != Slash
    ensures |rn| > 0 ==> |rn| > 2 && forall i :: 2 <= i < |rn| ==> rn[i] != Slash
    ensures |rn| > 0 && |rn| < |p| ==> p[|rn|] == Slash
  {
    if |p| > 2 && p[0] == Slash && p[1] == Slash && p[2] != Slash then
      var name := UntilSlash(p[2..]);
      assert p[2..][..|name|] == p[2 .. 2 + |name|];
      p[..2] + name
    else []
  }

  /** Whether a path has a root directory: a separator right after its root
      name. */
  predicate HasRootDir(p: Text) {
    |RootName(p)| < |p| && p[|RootName(p)|] == Slash
  }

  /** `absolute(p, base)` of Boost.Filesystem v3, the first step of
      `canonical(p, base)`. A path with a root name and a root directory is
      already absolute. A root name alone takes `base`'s root directory and
      relative path. A root directory alone takes `base`'s root name. A
      relative path is appended to `base`. */
  function Absolute(p: Text, base: Text): Text {
    var rn := RootName(p);
    if |rn| > 0 && HasRootDir(p) then p
    else if |rn| > 0 then Append(Append(rn, base[|RootName(base)|..]), p[|rn|..])
    else if HasRootDir(p) then RootName(base) + p
    else Append(base, p)
  }

  /** For paths without a root name, which is every path a client types except
      one starting with `//` and a name, `absolute` keeps an absolute path and
      appends a relative one to `base`. */
  lemma PlainAbsolute(p: Text, base: Text)
    requires |RootName(p)| == 0 && |RootName(base)| == 0
    ensures |p| > 0 && p[0] == Slash ==> Absolute(p, base) == p
    ensures !(|p| > 0 && p[0] == Slash) ==> Absolute(p, base) == Append(base, p)
  {
    if |p| > 0 && p[0] == Slash {
      assert HasRootDir(p);
      assert RootName(base) + p == p;
    }
  }

  /** A network root name without a root directory is resolved under the
      current directory (`//t` from `/h` is `//t/h`), and a rooted path from a
      network current directory keeps that network name (`/z` from `//x/y` is
      `//x/z`). */
  lemma NetworkAbsolute()
    ensures Absolute([Slash, Slash, 0x74], [Slash, 0x68]) == [Slash, Slash, 0x74, Slash, 0x68]
    ensures Absolute([Slash, 0x7A], [Slash, Slash, 0x78, Slash, 0x79]) == [Slash, Slash, 0x78, Slash, 0x7A]
  {
    var t: Text := [Slash, Slash, 0x74];
    assert UntilSlash(t[2..]) == [0x74];
    assert RootName(t) == t;
    var h: Text := [Slash, 0x68];
    assert RootName(h) == [];
    assert h[0..] == h;
    var z: Text := [Slash, 0x7A];
    assert RootName(z) == [];
    assert HasRootDir(z);
    var xy: Text := [Slash, Slash, 0x78, Slash, 0x79];
    assert xy[2..] == [0x78, Slash, 0x79];
    assert UntilSlash(xy[2..]) == [0x78];
    assert RootName(xy) == [Slash, Slash, 0x78];
  }

  /** The bytes after a path's last separator. */
  function LastComponent(path: Text): (name: Text)
    ensures |name| <= |path| && path[|path| - |name|..] == name
    ensures forall i :: 0 <= i < |name| ==> name[i] != Slash
    ensures |name| < |path| ==> path[|path| - |name| - 1] == Slash
    decreases |path|
  {
    if |path| == 0 || path[|path| - 1] == Slash then []
    else LastComponent(path[..|path| - 1]) + [path[|path| - 1]]
  }

  /** A path that is nothing but a network root name: exactly two leading
      separators, then a name with no further separator. */
  predicate NetworkName(path: Text) {
    && |path| > 2 && path[0] == Slash && path[1] == Slash
    && forall i :: 2 <= i < |path| ==> path[i] != Slash
  }

  /** `path.filename()` of Boost.Filesystem v3 on POSIX: the last component,
      except that a path consisting only of a network root name (`//name`) is
      its own file name. */
  function Filename(path: Text): (name: Text)
    ensures NetworkName(path) ==> name == path
    ensures !NetworkName(path) ==>
              && |name| <= |path| && path[|path| - |name|..] == name
              && (forall i :: 0 <= i < |name| ==> name[i] != Slash)
              && (|name| < |path| ==> path[|path| - |name| - 1] == Slash)
  {
    if NetworkName(path) then path else LastComponent(path)
  }

  /** Requesting `/f` from the root directory joins to `//f`, a network root
      name, and that whole path is the name `OPEN_W` carries. */
  lemma RootRequestKeepsNetworkName()
    ensures Append([Slash], [Slash, 0x66]) == [Slash, Slash, 0x66]
    ensures Filename([Slash, Slash, 0x66]) == [Slash, Slash, 0x66]
  {
    assert NetworkName([Slash, Slash, 0x66]);
  }

  predicate Exists(env: Env, path: Text) {
    path in env.files || path in env.dirs
  }

  // ---------------------------------------------------------------------------
  // Text replies

  /** The packet `sendTextMessage` builds: a fresh packet (id 0, `PLAIN_TEXT`)
      whose body length is set to the text's length and whose body area gets
      the text with `strncpy`, which pads with zeros up to `MaxBody`. */
  function TextPacket(t: Text): (p: Packet)
    ensures Valid(p)
    ensures View(p) == Message(PlainText, 0, t[..Min(|t|, MaxBody)])
  {
    var n := Min(|t|, MaxBody);
    var q := NewPacket();
    var area := t[..n] + seq(MaxBody - n, _ => 0);
    var filled := q.(data := Splice(q.data, HeaderLength, area));
    assert filled.data[HeaderLength .. HeaderLength + n] == area[..n];
    SetBodyLength(filled, |t|)
  }

  /** The same packet built with the setter as the source writes it: the body
      is the text cut to its length modulo 2^16, then to `MaxBody`. */
  function TextPacketAsWritten(t: Text): (p: Packet)
    ensures Valid(p)
    ensures View(p) == Message(PlainText, 0, t[..Min(|t| % 0x1_0000, MaxBody)])
  {
    var n := Min(|t|, MaxBody);
    var q := NewPacket();
    var area := t[..n] + seq(MaxBody - n, _ => 0);
    var filled := q.(data := Splice(q.data, HeaderLength, area));
    var m := Min(|t| % 0x1_0000, MaxBody);
    assert m <= n;
    assert filled.data[HeaderLength .. HeaderLength + m] == area[..m];
    SetBodyLengthAsWritten(filled, |t|)
  }

  /** For every text shorter than 2^16 bytes the reply `sendTextMessage`
      builds is the one the model uses. */
  lemma TextAsWrittenAgreesBelow64K(t: Text)
    requires |t| < 0x1_0000
    ensures View(TextPacketAsWritten(t)) == TextMessage(t)
  {
  }

  /** A text reply carries the text, cut to what fits in one body. */
  function TextMessage(t: Text): (m: Message)
    ensures m.action == PlainText && m.id == 0
    ensures m.body == t[..Min(|t|, MaxBody)]
  {
    View(TextPacket(t))
  }

  /** The consequence of the setter's truncation for replies: a 65540-byte
      listing goes out as a 4-byte body where the intended setter sends the
      first 8186 bytes. */
  lemma LongTextTruncated(t: Text)
    requires |t| == 0x1_0000 + 4
    ensures |Body(TextPacketAsWritten(t))| == 4
    ensures |Body(TextPacket(t))| == MaxBody
  {
  }

  function CwdText(cwd: Text): Text {
    Ascii("CWD is now ") + cwd
  }

  // ---------------------------------------------------------------------------
  // File download

  /** The `WRITE_CHUNK` bodies the read loop of `downloadFile` produces: full
      `MaxBody` reads while the stream stays good, and the short read that
      hits the end, which is empty when the size is a multiple of `MaxBody`. */
  function Chunks(content: Bytes): (cs: seq<Bytes>)
    ensures |cs| == |content| / MaxBody + 1
    ensures Concat(cs) == content
    ensures Chunkable(cs)
    ensures forall i :: 0 <= i < |cs| - 1 ==> |cs[i]| == MaxBody
    ensures |cs[|cs| - 1]| == |content| % MaxBody
    decreases |content|
  {
    if |content| < MaxBody then [content]
    else
      var rest := Chunks(content[MaxBody..]);
      DivStep(|content|);
      assert content == content[..MaxBody] + content[MaxBody..];
      [content[..MaxBody]] + rest
  }

  lemma DivStep(n: nat)
    requires n >= MaxBody
    ensures (n - MaxBody) / MaxBody == n / MaxBody - 1
    ensures (n - MaxBody) % MaxBody == n % MaxBody
  {
  }

  lemma ChunksUnfold(c: Bytes)
    ensures |c| < MaxBody ==> Chunks(c) == [c]
    ensures |c| >= MaxBody ==> Chunks(c) == [c[..MaxBody]] + Chunks(c[MaxBody..])
  {
  }

  /** One read of the loop below, from offset `pos`. */
  lemma ChunksAt(content: Bytes, pos: nat)
    requires pos <= |content|
    ensures |content| - pos < MaxBody ==> Chunks(content[pos..]) == [content[pos..|content|]]
    ensures |content| - pos >= MaxBody ==>
              Chunks(content[pos..]) == [content[pos .. pos + MaxBody]] + Chunks(content[pos + MaxBody..])
  {
    var tail := content[pos..];
    if |tail| < MaxBody {
      assert tail == content[pos..|content|];
      ChunksUnfold(tail);
    } else {
      assert tail[..MaxBody] == content[pos .. pos + MaxBody];
      assert tail[MaxBody..] == content[pos + MaxBody..];
      ChunksUnfold(tail);
    }
  }

  /** The loop invariant of `ReadChunks` carried across one read. */
  lemma ReadStep(content: Bytes, pos: nat, cs: seq<Bytes>)
    requires pos <= |content| && cs + Chunks(content[pos..]) == Chunks(content)
    ensures |content| - pos < MaxBody ==> cs + [content[pos..|content|]] == Chunks(content)
    ensures |content| - pos >= MaxBody ==>
              (cs + [content[pos .. pos + MaxBody]]) + Chunks(content[pos + MaxBody..]) == Chunks(content)
  {
    ChunksAt(content, pos);
    if |content| - pos >= MaxBody {
      ConsAssoc(cs, content[pos .. pos + MaxBody], Chunks(content[pos + MaxBody..]));
    }
  }

  lemma ConsAssoc<T>(a: seq<T>, x: T, b: seq<T>)
    ensures a + ([x] + b) == (a + [x]) + b
  {
  }

  /** The read loop of `downloadFile` as written, `while (stream)` over
      `read(max_body_length)` and `gcount()`. */
  method ReadChunks(content: Bytes) returns (cs: seq<Bytes>)
    ensures cs == Chunks(content)
    ensures Concat(cs) == content
  {
    cs := [];
    var pos := 0;
    var good := true;
    while good
      invariant 0 <= pos <= |content|
      invariant good ==> cs + Chunks(content[pos..]) == Chunks(content)
      invariant !good ==> cs == Chunks(content)
      decreases |content| - pos + (if good then 1 else 0)
    {
      var got := if |content| - pos < MaxBody then |content| - pos else MaxBody;
      var chunk := content[pos .. pos + got];
      ReadStep(content, pos, cs);
      cs := cs + [chunk];
      pos := pos + got;
      // a short read sets the end-of-file and fail bits, ending the loop
      good := got == MaxBody;
    }
  }

  /** The chunk frames actually attempted: each one in turn, stopping after the
      first write the oracle fails; `k` is the call number of the first. */
  function ChunkAttempts(id: U16, chunks: seq<Bytes>, writeOk: nat -> bool, k: nat): (ms: seq<Message>)
    requires Chunkable(chunks)
    ensures |ms| <= |chunks| && ms == ChunkMessages(id, chunks)[..|ms|]
    ensures forall i :: 0 <= i < |ms| ==> ms[i] == Message(WriteChunk, id, chunks[i])
    ensures |chunks| > 0 ==> |ms| > 0
    ensures forall j :: k <= j < k + |ms| - 1 ==> writeOk(j)
    ensures 0 < |ms| < |chunks| ==> !writeOk(k + |ms| - 1)
    decreases |chunks|
  {
    if |chunks| == 0 then []
    else if !writeOk(k) then [Message(WriteChunk, id, chunks[0])]
    else
      var rest := ChunkAttempts(id, chunks[1..], writeOk, k + 1);
      assert ChunkMessages(id, chunks) == [Message(WriteChunk, id, chunks[0])] + ChunkMessages(id, chunks[1..]);
      [Message(WriteChunk, id, chunks[0])] + rest
  }

  /** `strcpy` copies the file name and its terminator to body offset 4, which
      stays inside the buffer only for names of at most 8181 bytes. */
  predicate DownloadSafe(s: Session, env: Env, filepath: Text) {
    var path := Append(s.cwd, filepath);
    path in env.files ==> |Filename(path)| <= MaxBody - 5
  }

  function NotFoundText(filepath: Text): Text {
    Ascii("get Error: File not found '") + filepath + Ascii("'\n")
  }

  /** The frames `downloadFile` hands to `writePacket` for an existing file:
      `OPEN_W` (stopping there if it fails), the chunks until one fails, and
      `CLOSE`, all carrying the transfer's id. */
  function SendFile(id: U16, content: Bytes, name: Text, writeOk: nat -> bool): (ws: seq<Message>)
    requires |name| <= MaxBody - 5
    ensures |ws| >= 1 && ws[0] == OpenMessage(id, |content| % 0x1_0000_0000, name)
    ensures !writeOk(0) ==> ws == [ws[0]]
    ensures writeOk(0) ==> ws == [ws[0]] + ChunkAttempts(id, Chunks(content), writeOk, 1) + [Message(Close, id, [])]
    ensures forall i :: 0 <= i < |ws| ==> ws[i].id == id && |ws[i].body| <= MaxBody
  {
    var open := OpenMessage(id, |content| % 0x1_0000_0000, name);
    if !writeOk(0) then [open]
    else
      var chunks := ChunkAttempts(id, Chunks(content), writeOk, 1);
      Bracketed(id, open, chunks, Message(Close, id, []));
      [open] + chunks + [Message(Close, id, [])]
  }

  /** Frames that all carry `id` and fit one body still do with an opening
      and a closing frame of the same kind around them. */
  lemma Bracketed(id: U16, first: Message, mid: seq<Message>, last: Message)
    requires first.id == id && |first.body| <= MaxBody
    requires last.id == id && |last.body| <= MaxBody
    requires forall i :: 0 <= i < |mid| ==> mid[i].id == id && |mid[i].body| <= MaxBody
    ensures var ws := [first] + mid + [last];
            forall i :: 0 <= i < |ws| ==> ws[i].id == id && |ws[i].body| <= MaxBody
  {
    var ws := [first] + mid + [last];
    forall i | 0 <= i < |ws|
      ensures ws[i].id == id && |ws[i].body| <= MaxBody
    {
      if 0 < i < |ws| - 1 {
        assert ws[i] == mid[i - 1];
      }
    }
  }

  function DownloadFile(s: Session, env: Env, filepath: Text, writeOk: nat -> bool): (r: Reply)
    requires DownloadSafe(s, env, filepath)
    // every call takes an id and advances the counter, modulo 2^16
    ensures r.session == Session(s.cwd, (s.nextId + 1) % 0x1_0000)
    // a missing path: one text reply, no transfer frames
    ensures !Exists(env, Append(s.cwd, filepath)) ==>
              r.writes == [TextMessage(NotFoundText(filepath))] && r.outcome == Completed
    // a directory: `file_size` throws before anything is sent
    ensures Append(s.cwd, filepath) in env.dirs && Append(s.cwd, filepath) !in env.files ==>
              r.writes == [] && r.outcome == Terminated
    // a file: the transfer frames under the id this call took
    ensures Append(s.cwd, filepath) in env.files ==>
              var path := Append(s.cwd, filepath);
              r.writes == SendFile(s.nextId, env.files[path], Filename(path), writeOk) && r.outcome == Completed
  {
    var s' := s.(nextId := (s.nextId + 1) % 0x1_0000);
    var path := Append(s.cwd, filepath);
    if !Exists(env, path) then
      Reply(s', [TextMessage(NotFoundText(filepath))], Completed)
    else if path !in env.files then
      Reply(s', [], Terminated)
    else
      Reply(s', SendFile(s.nextId, env.files[path], Filename(path), writeOk), Completed)
  }

  /** With every write succeeding, an existing file goes out as `OPEN_W`, one
      chunk per `MaxBody` bytes plus a final short one, and `CLOSE`. */
  lemma {:induction false} DownloadAllWritten(s: Session, env: Env, filepath: Text, writeOk: nat -> bool)
    requires DownloadSafe(s, env, filepath)
    requires Append(s.cwd, filepath) in env.files
    requires forall k :: writeOk(k)
    ensures var path := Append(s.cwd, filepath);
            var content := env.files[path];
            DownloadFile(s, env, filepath, writeOk).writes
              == [OpenMessage(s.nextId, |content| % 0x1_0000_0000, Filename(path))]
                 + ChunkMessages(s.nextId, Chunks(content))
                 + [Message(Close, s.nextId, [])]
  {
    var content := env.files[Append(s.cwd, filepath)];
    var cs := Chunks(content);
    var ms := ChunkAttempts(s.nextId, cs, writeOk, 1);
    assert |ms| == |cs|;
    assert ChunkMessages(s.nextId, cs)[..|cs|] == ChunkMessages(s.nextId, cs);
  }

  /** A failed chunk write stops the chunks but `CLOSE` is still attempted. */
  lemma ChunkFailureStillCloses(s: Session, env: Env, filepath: Text, writeOk: nat -> bool)
    requires DownloadSafe(s, env, filepath)
    requires Append(s.cwd, filepath) in env.files
    requires writeOk(0) && !writeOk(1)
    ensures var r := DownloadFile(s, env, filepath, writeOk);
            && |r.writes| == 3
            && r.writes[1].action == WriteChunk
            && r.writes[2] == Message(Close, s.nextId, [])
  {
  }

  // ---------------------------------------------------------------------------
  // Directory listing

  function ListingNotFoundText(path: Text): Text {
    Ascii("listdir Error: Directory not found '") + path + Ascii("'\n")
  }

  function ListingText(listing: Text): Text {
    Ascii("Directory Contents:\n") + listing
  }

  function ListDirectory(s: Session, env: Env, dirpath: Text): (r: Reply)
    ensures r.session == s
    ensures !Exists(env, Append(s.cwd, dirpath)) ==>
              r.writes == [TextMessage(ListingNotFoundText(Append(s.cwd, dirpath)))] && r.outcome == Completed
    ensures Append(s.cwd, dirpath) in env.dirs ==>
              r.writes == [TextMessage(ListingText(env.dirs[Append(s.cwd, dirpath)]))]
              && r.outcome == Completed
    // iterating a regular file as a directory throws
    ensures Append(s.cwd, dirpath) !in env.dirs && Append(s.cwd, dirpath) in env.files ==>
              r.writes == [] && r.outcome == Terminated
  {
    var path := Append(s.cwd, dirpath);
    if !Exists(env, path) then Reply(s, [TextMessage(ListingNotFoundText(path))], Completed)
    else if path in env.dirs then Reply(s, [TextMessage(ListingText(env.dirs[path]))], Completed)
    else Reply(s, [], Terminated)
  }

  // ---------------------------------------------------------------------------
  // Dispatch

  /** What `parsePacket` silently needs of a packet: the terminator it writes at
      `body()[body_length()]` must lie inside the 8192-byte buffer, and a path
      copied into a 512-byte array with `strncpy(..., body_length + 1)` must
      fit there. */
  predicate Dispatchable(s: Session, env: Env, m: Message) {
    && |m.body| < MaxBody
    && (m.action == OpenRead || m.action == ListDir || m.action == ChangeDir ==> |m.body| < 512)
    && (m.action == OpenRead ==> DownloadSafe(s, env, CString(m.body)))
  }

  function Dispatch(s: Session, env: Env, m: Message, writeOk: nat -> bool): (r: Reply)
    requires Dispatchable(s, env, m)
    ensures m.action == OpenRead ==> r == DownloadFile(s, env, CString(m.body), writeOk)
    ensures m.action == ListDir ==> r == ListDirectory(s, env, CString(m.body))
    // CHANGEDIR moves only when the path resolves, then replies as PRINTDIR does
    ensures m.action == ChangeDir ==>
              var abs := Absolute(CString(m.body), s.cwd);
              && r.session.nextId == s.nextId
              && r.session.cwd == (if abs in env.canonical then env.canonical[abs] else s.cwd)
              && r.writes == [TextMessage(CwdText(r.session.cwd))]
              && r.outcome == Completed
    ensures m.action == PrintDir ==> r == Reply(s, [TextMessage(CwdText(s.cwd))], Completed)
    // everything else is only logged
    ensures m.action !in {OpenRead, ListDir, ChangeDir, PrintDir} ==> r == Reply(s, [], Completed)
  {
    var path := CString(m.body);
    if m.action == OpenRead then DownloadFile(s, env, path, writeOk)
    else if m.action == ListDir then ListDirectory(s, env, path)
    else if m.action == ChangeDir || m.action == PrintDir then
      var abs := Absolute(path, s.cwd);
      var cwd := if m.action == ChangeDir && abs in env.canonical then env.canonical[abs] else s.cwd;
      Reply(s.(cwd := cwd), [TextMessage(CwdText(cwd))], Completed)
    else Reply(s, [], Completed)
  }

  /** `CHANGEDIR` to a path that does not resolve leaves the directory as it
      was and still yields exactly one reply, the current directory. */
  lemma ChangeDirToNowhere(s: Session, env: Env, m: Message, writeOk: nat -> bool)
    requires m.action == ChangeDir && |m.body| < 512
    requires Absolute(CString(m.body), s.cwd) !in env.canonical
    ensures Dispatch(s, env, m, writeOk) == Reply(s, [TextMessage(CwdText(s.cwd))], Completed)
  {
  }
}

=== FILE: transfer.dfy ===
/** A download end to end: the frames the server session sends for a file,
    serialized onto the connection, read back by the client's read loop and
    handled by the client's dispatcher, leave the client with the file. */
module Transfer {
  import opened Bytes
  import opened Packets
  import ReadLoop
  import ClientSession
  import ServerSession

  /** The frames of one complete transfer. */
  function TransferFrames(id: U16, size: U32, name: Text, chunks: seq<Bytes>): seq<Message>
    requires Chunkable(chunks)
  {
    [OpenMessage(id, size, name)] + ChunkMessages(id, chunks) + [Message(Close, id, [])]
  }

  /** A complete transfer's frames fit the wire format and satisfy every bound
      the client's dispatcher relies on. */
  lemma TransferFramesWellFormed(id: U16, size: U32, name: Text, chunks: seq<Bytes>)
    requires Chunkable(chunks) && 4 + |name| < MaxBody
    ensures ReadLoop.Framable(TransferFrames(id, size, name, chunks))
    ensures ClientSession.AllParsable(TransferFrames(id, size, name, chunks))
  {
    var ws := TransferFrames(id, size, name, chunks);
    var cm := ChunkMessages(id, chunks);
    forall i | 0 <= i < |ws|
      ensures |ws[i].body| <= MaxBody && ClientSession.Parsable(ws[i])
    {
      if 0 < i < |ws| - 1 {
        assert ws[i] == cm[i - 1];
      }
    }
  }

  /** Download delivery: with every write succeeding, a client whose read loop
      awaits a header and that has no transfer under the server's next id ends
      up with the file's exact contents under its bare name, no leftover
      transfer entry, and nothing printed. */
  lemma {:induction false} DownloadReassembles(s: ServerSession.Session, env: ServerSession.Env,
                                               filepath: Text, writeOk: nat -> bool,
                                               c: ClientSession.Client, reader: ReadLoop.Reader)
    requires ServerSession.DownloadSafe(s, env, filepath)
    requires ServerSession.Append(s.cwd, filepath) in env.files
    requires forall k :: writeOk(k)
    requires s.nextId !in c.files
    requires Valid(reader.cur) && reader.phase == ReadLoop.AwaitingHeader
    ensures var ws := ServerSession.DownloadFile(s, env, filepath, writeOk).writes;
            && ReadLoop.Framable(ws)
            && var received := ReadLoop.Views(ReadLoop.Run(reader, ReadLoop.SerializeAll(ws)).0);
               && received == ws
               && ClientSession.AllParsable(received)
               && var path := ServerSession.Append(s.cwd, filepath);
                  ClientSession.ApplyAll(c, received)
                    == c.(disk := c.disk[ServerSession.Filename(path) := env.files[path]])
  {
    var path := ServerSession.Append(s.cwd, filepath);
    var content := env.files[path];
    var name := ServerSession.Filename(path);
    var size := |content| % 0x1_0000_0000;
    var cs := ServerSession.Chunks(content);
    var ws := ServerSession.DownloadFile(s, env, filepath, writeOk).writes;
    ServerSession.DownloadAllWritten(s, env, filepath, writeOk);
    assert ws == TransferFrames(s.nextId, size, name, cs);
    TransferFramesWellFormed(s.nextId, size, name, cs);
    ReadLoop.FramingRoundTrip(reader, ws);
    ClientSession.TransferCompletes(c, s.nextId, size, name, cs);
  }
}

=== FILE: writequeue.dfy ===
/** The client's outbound write queue (`write` and `do_write` in
    `ntp_client.cpp`): packets wait in a FIFO; the front one is transmitted,
    and it leaves the queue only once its write has completed successfully,
    after which the next transmission starts if anything is still queued. */
module WriteQueue {
  import opened Packets

  /** `queue` is `write_msgs_`; `inFlight` says an asynchronous write of the
      front packet is outstanding; `live` says that write was issued while the
      socket was open, so it may still succeed even if the socket closes before
      its handler runs (a write issued on a closed socket always fails);
      `open` is the socket state; `sent` records the packets whose bytes were
      fully transmitted, in order. */
  datatype Channel = Channel(queue: seq<Packet>, inFlight: bool, live: bool, open: bool, sent: seq<Packet>)

  /** `Post` is the posted body of `write` running on the I/O thread;
      `WriteDone` is the completion of the outstanding write; `SocketClosed` is
      a close from elsewhere (a read error, or `close()`). */
  datatype Event = Post(p: Packet) | WriteDone(ok: bool) | SocketClosed

  const Init := Channel([], false, false, true, [])

  /** A write is outstanding only for a queued packet, a non-empty queue
      with nothing outstanding happens only after the socket closed, and only
      an outstanding write can be live. */
  predicate Inv(c: Channel) {
    && (c.inFlight ==> |c.queue| > 0)
    && (|c.queue| > 0 && !c.inFlight ==> !c.open)
    && (c.live ==> c.inFlight)
  }

  /** `write`: append at the back; start transmitting only if the queue was
      empty beforehand. */
  function Write(c: Channel, p: Packet): (r: Channel)
    requires Inv(c)
    ensures Inv(r)
    ensures r.queue == c.queue + [p]
    ensures r.sent == c.sent && r.open == c.open
    ensures r.inFlight <==> c.inFlight || |c.queue| == 0
    ensures !c.inFlight && r.inFlight ==> |c.queue| == 0 && r.queue == [p]
    // a write started now can succeed only if the socket is open now
    ensures |c.queue| == 0 ==> (r.live <==> c.open)
    ensures |c.queue| > 0 ==> r.live == c.live
  {
    var wasWriting := |c.queue| > 0;
    if wasWriting then c.(queue := c.queue + [p])
    else c.(queue := c.queue + [p], inFlight := true, live := c.open)
  }

  /** The completion handler of `do_write`, which tests only the error code.
      On success the front packet has gone out: pop it and start the next
      write if anything remains, whatever the socket state (a write started on
      a closed socket is not live). On error close the socket and leave the
      front packet queued; no write starts. A write that was not live always
      fails, whatever `ok` says. */
  function Complete(c: Channel, ok: bool): (r: Channel)
    requires Inv(c) && c.inFlight
    ensures Inv(r)
    ensures ok && c.live ==>
              && r.sent == c.sent + [c.queue[0]]
              && r.queue == c.queue[1..]
              && (r.inFlight <==> |r.queue| > 0)
              && (r.live <==> r.inFlight && c.open)
              && r.open == c.open
    ensures !(ok && c.live) ==>
              r == c.(inFlight := false, live := false, open := false)
  {
    if ok && c.live then
      var rest := c.queue[1..];
      c.(queue := rest, sent := c.sent + [c.queue[0]], inFlight := |rest| > 0, live := |rest| > 0 && c.open)
    else
      c.(inFlight := false, live := false, open := false)
  }

  function Step(c: Channel, e: Event): (r: Channel)
    requires Inv(c)
    ensures Inv(r)
  {
    match e
    case Post(p) => Write(c, p)
    // a completion arrives only for an outstanding write
    case WriteDone(ok) => if c.inFlight then Complete(c, ok) else c
    case SocketClosed => c.(open := false)
  }

  function Run(c: Channel, es: seq<Event>): (r: Channel)
    requires Inv(c)
    ensures Inv(r)
    decreases |es|
  {
    if |es| == 0 then c else Run(Step(c, es[0]), es[1..])
  }

  /** The packets handed to `write`, in order. */
  function Posted(es: seq<Event>): seq<Packet>
    decreases |es|
  {
    if |es| == 0 then []
    else (if es[0].Post? then [es[0].p] else []) + Posted(es[1..])
  }

  /** Write ordering: packets leave in exactly the order they were enqueued,
      each whole, none skipped and none repeated; what has not left is still
      queued in the same order. */
  lemma {:induction false} FifoOrder(c: Channel, es: seq<Event>)
    requires Inv(c)
    ensures Run(c, es).sent + Run(c, es).queue == c.sent + c.queue + Posted(es)
    decreases |es|
  {
    if |es| > 0 {
      var c1 := Step(c, es[0]);
      FifoOrder(c1, es[1..]);
      var added := if es[0].Post? then [es[0].p] else [];
      StepOrder(c, es[0]);
      assert Posted(es) == added + Posted(es[1..]);
      assert c1.sent + c1.queue + Posted(es[1..]) == c.sent + c.queue + (added + Posted(es[1..]));
    }
  }

  /** One event keeps sent-then-queued equal to what was there plus what the
      event posts. */
  lemma StepOrder(c: Channel, e: Event)
    requires Inv(c)
    ensures Step(c, e).sent + Step(c, e).queue == c.sent + c.queue + (if e.Post? then [e.p] else [])
  {
    if e.WriteDone? && c.inFlight && e.ok && c.live {
      assert c.queue == [c.queue[0]] + c.queue[1..];
    }
  }

  /** Transmission only ever extends what has been sent. */
  lemma {:induction false} SentOnlyGrows(c: Channel, es: seq<Event>)
    requires Inv(c)
    ensures c.sent <= Run(c, es).sent
    decreases |es|
  {
    if |es| > 0 {
      SentOnlyGrows(Step(c, es[0]), es[1..]);
    }
  }

  /** Once the socket is closed and no write issued before the close is
      still outstanding, nothing more is ever transmitted: a failed write
      leaves its packet at the front, so later writes never start one, and a
      write started on the closed socket fails. */
  lemma {:induction false} NothingSentAfterClose(c: Channel, es: seq<Event>)
    requires Inv(c) && !c.open && !c.live
    ensures Run(c, es).sent == c.sent
    ensures !Run(c, es).open
    decreases |es|
  {
    if |es| > 0 {
      NothingSentAfterClose(Step(c, es[0]), es[1..]);
    }
  }

  /** Three packets written on a fresh channel whose
      writes all succeed go out as A, B, C. */
  lemma ThreeInOrder(a: Packet, b: Packet, x: Packet)
    ensures Run(Init, [Post(a), Post(b), Post(x), WriteDone(true), WriteDone(true), WriteDone(true)])
              == Channel([], false, false, true, [a, b, x])
  {
    var es := [Post(a), Post(b), Post(x), WriteDone(true), WriteDone(true), WriteDone(true)];
    var c1 := Step(Init, Post(a));
    var c2 := Step(c1, Post(b));
    var c3 := Step(c2, Post(x));
    var c4 := Step(c3, WriteDone(true));
    var c5 := Step(c4, WriteDone(true));
    var c6 := Step(c5, WriteDone(true));
    assert c6 == Channel([], false, false, true, [a, b, x]);
    assert Run(c6, es[6..]) == c6;
    assert Run(c5, es[5..]) == Run(c6, es[6..]);
    assert Run(c4, es[4..]) == Run(c5, es[5..]);
    assert Run(c3, es[3..]) == Run(c4, es[4..]);
    assert Run(c2, es[2..]) == Run(c3, es[3..]);
    assert Run(c1, es[1..]) == Run(c2, es[2..]);
    assert Run(Init, es) == Run(c1, es[1..]);
  }

  /** A write whose bytes went out before a read error closed the socket, but
      whose handler runs after the close, still counts as sent and is popped,
      as the handler tests only the error code. */
  lemma SuccessAfterClose(a: Packet)
    ensures Run(Channel([a], true, true, true, []), [SocketClosed, WriteDone(true)])
              == Channel([], false, false, false, [a])
  {
    var es := [SocketClosed, WriteDone(true)];
    var c0 := Channel([a], true, true, true, []);
    var c1 := Step(c0, SocketClosed);
    var c2 := Step(c1, WriteDone(true));
    assert c2 == Channel([], false, false, false, [a]);
    assert Run(c2, es[2..]) == c2;
    assert Run(c1, es[1..]) == Run(c2, es[2..]);
  }
}
